=== FILE: README.md ===
# CyberFantasy core in Dafny

CyberFantasy is a fantasy e-sports backend written with Django and Django REST
Framework. Users build fantasy teams for a Dota 2 competition. Each tour of a
team has a roster of real players, and the roster must fit a budget of 50.00.
Teams are ranked by their result, and match data comes from the OpenDota HTTP
API.

This project models the decision rules of that backend as pure Dafny
functions and methods over immutable records, and proves what they guarantee:

- `Constants` (`constants.dfy`): the competition-status and game-role
  enumerations, their stored string values, and `choices()`.
- `Models` (`models.dfy`): the records `Competition`, `Player`, `FantasyTeam`
  and `FantasyPlayer`.
  - Two-place decimal columns are whole hundredths, bounded by their
    `max_digits`.
  - Column defaults are modelled, as are choice validation and the two
    uniqueness constraints on fantasy teams.
- `Budget` (`budget.dfy`): roster admission in `FantasyPlayerViewSet.perform_create`
  and `perform_update`.
- `Rating` (`rating.dfy`): the competition and tour ratings.
  - The rank is PostgreSQL `RANK()` over `result` descending.
  - The rating is cut to 100 rows.
- `Listing` (`listing.dfy`): the owner filter of the fantasy-team list
  endpoint, with its optional `competition` (exact) and `competition__in`
  lookups.
- `Connectors` (`connectors.dfy`): the three response-handling rules of
  `DotaApiConnector`.
  - HTTP is replaced by `(ok, body)` responses.
  - For the retry loop, it is replaced by a function from request number to
    response.
- `Serializers` (`serializers.dfy`): three rules.
  - The sign-up username defaults to the email.
  - A fantasy team's result is recomputed from match results.
  - Each roster slot lists its match results.
- `Base` (`base.dfy`): an option type, plus the sequence `Filter` and `Sum`
  that stand for a queryset's `filter()` and `Sum()` aggregate.

The views and serializers use `CompetitionTour`, `FantasyTeamTour`,
`PlayerMatchResult` and a `competition_tour` link, but `app/fantasy/models.py`
does not define them. The model therefore reads them only through the fields
the code uses:
- a tour's `is_editing_allowed`;
- a roster slot's player, with its role and cost;
- a slot's tour;
- a result row's player, tour and result.

Amounts are exact hundredths. Python `Decimal` arithmetic on these columns is
exact, so no rounding is modelled.

A few behaviours of the code are kept as written:

- Budget admission follows a `NULL` link into an `AttributeError`.
  - The handler catches only `KeyError`, so the exception escapes.
  - This is the `Raised` outcome.
  - The create serializer's fields (`app/api/serializers.py:118-122`) do not
    include `fantasy_team_tour`. A request built from that serializer
    therefore takes this branch.
- A refused candidate is dropped silently (`Ignored`).
- `perform_create` appends the new slot without removing a slot of the same
  role. The admission rule therefore bounds the roster's cost only once that
  slot is replaced (`AdmittedSwapFitsCap`), and a created roster can exceed
  50.00 (`CreateCanExceedCap`).
- `get_result` matches result rows by two independent membership tests. One
  is "player of some slot", the other "tour of some slot". This is a cross
  product, not a per-slot pairing (`GetResultCrossProduct`).
- The rating's query has no ordering outside the window function. The model
  returns the rows best first, in the window's order.

## Model

| member | source | states |
|---|---|---|
| Constants.Choices | app/fantasy/constants.py:9-12 | one `(value, value)` pair per member value, in the given order and nothing else |
| Constants.ChoiceKeysRoundTrip | app/fantasy/constants.py:11 | the keys of the choices built from a value list are that list |
| Constants.ParseStatus | app/fantasy/constants.py:4-7 | a string parses to a status only if that status's value is the string |
| Constants.ParseRole | app/fantasy/constants.py:15-20 | a string parses to a role only if that role's value is the string |
| Constants.StatusChoicesShape | app/fantasy/constants.py:4-12 | status choices are exactly three pairs with equal components: NOT STARTED, STARTED, FINISHED in declaration order, with distinct keys |
| Constants.RoleChoicesShape | app/fantasy/constants.py:15-25 | role choices are exactly five pairs with equal components: CARRY, MID, HARD, SUPPORT_4, SUPPORT_5 in declaration order, with distinct keys |
| Constants.StatusValueRoundTrip | app/fantasy/constants.py:4-7 | every status is listed; parsing its value gives it back; a string parses iff it is a status value |
| Constants.RoleValueRoundTrip | app/fantasy/constants.py:15-20 | every role is listed; parsing its value gives it back; a string parses iff it is a role value |
| Constants.ValuesInjective | app/fantasy/constants.py:4-20 | distinct members of either enumeration have distinct stored values |
| Models.CostRange | app/fantasy/models.py:47 | a cost fits `max_digits=4, decimal_places=2` iff its magnitude is at most 99.99 |
| Models.AmountRange | app/fantasy/models.py:58 | a result fits `max_digits=10, decimal_places=2` iff its magnitude is at most 99 999 999.99 |
| Models.NewPlayer | app/fantasy/models.py:41-47 | a new player keeps the given fields; an omitted cost defaults to 0 |
| Models.NewFantasyTeam | app/fantasy/models.py:53-59 | a new fantasy team keeps the given fields and starts with result 0 |
| Models.NewFantasyPlayer | app/fantasy/models.py:70-77 | a new roster slot keeps the given links and starts with result 0 |
| Models.CleanStatus | app/fantasy/models.py:32 | a stored status is accepted iff it is a key of the status choices, and it then names the status with that value |
| Models.CleanRole | app/fantasy/models.py:45 | a stored game role is accepted iff it is a key of the role choices, and it then names the role with that value |
| Models.InsertTeam | app/fantasy/models.py:53-64 | the insert succeeds iff three things hold: the name has at most 128 characters, no existing team has the name, and no existing team has the same non-NULL (user, competition). On success the row is appended and both uniqueness constraints still hold |
| Models.SecondTeamRefused | app/fantasy/models.py:61-64 | a second team of one user in one competition is refused |
| Models.NullUsersDoNotCollide | app/fantasy/models.py:54-64 | two teams without a user can enter the same competition (NULLs are distinct in the constraint) |
| Budget.RosterCostSplit | app/api/views.py:176-180 | the roster sum is the same-role sum plus the other-role sum |
| Budget.OtherRoleCostIsWithoutRole | app/api/views.py:178-180 | the other-role sum is the cost of the roster with the role's slots removed |
| Budget.AdmitsIffOthersFit | app/api/views.py:176-182 | a candidate is admitted iff editing is open and its cost plus the other-role slots is at most 50.00 |
| Budget.PerformCreate | app/api/views.py:172-185 | a NULL team-tour, player or tour raises. Otherwise the slot is saved iff editing is open and the candidate plus the other-role slots fit 50.00. A saved slot is appended to the roster, and a refusal changes nothing |
| Budget.PerformUpdate | app/api/views.py:187-200 | the same decision as create. A saved slot replaces the edited slot in place, or joins the roster when it comes from another one |
| Budget.ClosedWindowSavesNothing | app/api/views.py:182 | with editing closed, create and update save nothing, whatever the cost |
| Budget.EmptyRosterAdmission | app/api/views.py:176-182 | on an empty roster (NULL sums read as 0) a candidate is admitted iff its cost is at most 50.00 |
| Budget.AdmissionMonotone | app/api/views.py:181-182 | a cheaper candidate of the same role is admitted wherever a dearer one is |
| Budget.UpdateAgreesWithCreate | app/api/views.py:187-200 | update saves, ignores or raises exactly when create does |
| Budget.AdmittedSwapFitsCap | app/api/views.py:176-183 | after an admitted candidate replaces the roster's same-role slots, the roster costs at most 50.00 |
| Budget.CreateCanExceedCap | app/api/views.py:172-183 | create admits a second 30.00 carry next to the first, leaving a roster of 60.00 |
| Rating.Insert | app/api/views.py:63 | inserting into a best-first sequence keeps it best first and adds exactly the new standing |
| Rating.SortDesc | app/api/views.py:63 | the window order is a best-first permutation of the scope's standings |
| Rating.InsertKeepsTieOrder | app/api/views.py:63 | inserting a standing into a best-first sequence puts it ahead of the standings it ties with and keeps their order |
| Rating.SortDescKeepsTieOrder | app/api/views.py:63 | in every scope, the standings with any given result appear in the window order in their input order, which decides which tied teams make the 100-row cut |
| Rating.CountAboveSort | app/api/views.py:63 | ordering the scope does not change how many results lie above a value |
| Rating.AnnotateRanks | app/api/views.py:62-63 | over a best-first sequence, each row's rank is 1 plus the number of results strictly above it |
| Rating.Rate | app/api/views.py:62-63 | the rating has min(n, 100) rows, best first. Each rank is 1 plus the number of scope teams strictly above, and at most the team count. Equal results share a rank, and no left-out team beats a returned row |
| Rating.RanksCountAboveTies | app/api/views.py:63 | ranks that count the teams above give equal results equal ranks |
| Rating.CompetitionStandings | app/api/views.py:62 | one standing per team entered in the competition: every such team appears, and nothing else does |
| Rating.TourStandings | app/api/views.py:94 | one standing per team-tour of the tour: every such team-tour appears, and nothing else does |
| Rating.CompetitionRating | app/api/views.py:56-65 | min(n, 100) rows of the competition's n teams, best first. Each rank is 1 plus the number of the competition's teams strictly above. Ties share a rank, and no team left out beats a returned row |
| Rating.TourRating | app/api/views.py:88-97 | min(n, 100) rows of the tour's n team-tours, best first. Each rank is 1 plus the number of the tour's team-tours strictly above. Ties share a rank, and no team-tour left out beats a returned row |
| Listing.OwnedBy | app/api/views.py:125-127 | exactly the requester's teams are kept, with their multiplicities and order; a team without an owner is nobody's |
| Listing.ListFantasyTeams | app/api/views.py:117-127 | a team is listed iff three things hold: it belongs to the requester; when `competition` is given, it is in that competition; when `competition__in` is given with at least one id, its competition is set and among those given; an empty `competition__in` filters nothing out |
| Listing.EmptyInFiltersNothing | app/api/views.py:117-127 | `?competition__in=` with no ids lists exactly what the listing lists without that parameter |
| Listing.ListingWithoutCompetition | app/api/views.py:125-127 | without the competition parameters the list is exactly the owner filter |
| Listing.SingletonInIsExact | app/api/views.py:120-122 | `competition__in` with one competition lists exactly what the exact lookup lists |
| Listing.OwnedByDisjoint | app/api/views.py:125-127 | two users' listings share no team |
| Listing.OwnedByAppend | app/api/views.py:125-127 | the owner filter splits over a table given in two parts |
| Listing.ListingOneCompetitionShowsOneTeam | app/api/views.py:117-127 | in a table that keeps the (user, competition) constraint, a user sees at most one team per competition |
| Connectors.NatToStringRoundTrip | app/api/connectors.py:31 | the printed digits of a natural number read back as that number |
| Connectors.IntToStringHead | app/api/connectors.py:31 | a printed integer starts with `-` iff it is negative, and with a digit otherwise |
| Connectors.IntToStringInjective | app/api/connectors.py:31 | distinct integer league ids print differently |
| Connectors.InLeagueNumeric | app/api/connectors.py:30-33 | against a printed integer k, a summary matches iff its leagueid is k, the string of k, or missing with k = 0. A null or boolean leagueid never matches |
| Connectors.MatchIdsStep | app/api/connectors.py:29-34 | one loop pass appends the summary's id (0 when missing) exactly when its league matches |
| Connectors.GetMatchesId | app/api/connectors.py:21-39 | a failed request gives the empty string. An ok one gives the ids of exactly the summaries whose printed leagueid equals the competition id, in response order |
| Connectors.GetLeagueMatchesId | app/api/connectors.py:41-47 | the result is truthy iff the response is ok with a truthy body, and is then the body; otherwise it is `{}` |
| Connectors.GetMatchInfo | app/api/connectors.py:49-62 | 1 to 11 requests. Every request before the last failed. The body of the first ok response is returned with no request after it, or `{}` after eleven failures |
| Connectors.FirstOk | app/api/connectors.py:52-61 | the index of the first ok response among the first n, or none if all fail |
| Connectors.MatchInfoAgreesWithFirstOk | app/api/connectors.py:49-62 | the retry loop stops exactly at the first ok response within eleven requests, and returns `{}` when there is none |
| Serializers.DefaultUsername | app/api/serializers.py:19-24 | a truthy username is kept, otherwise the email becomes the username. Email and password are unchanged. The username ends truthy iff username or email was |
| Serializers.DefaultUsernameIdempotent | app/api/serializers.py:20-24 | defaulting twice equals defaulting once |
| Serializers.CountedRows | app/api/serializers.py:134-139 | exactly the result rows with a non-NULL player among the slots' players and a non-NULL tour among the slots' tours, with their multiplicities |
| Serializers.Aggregate | app/api/serializers.py:140 | the aggregate is NULL iff no row is summed, and otherwise the sum |
| Serializers.GetResult | app/api/serializers.py:133-141 | the total is 0 when no row matches |
| Serializers.GetResultIsSum | app/api/serializers.py:140-141 | the total is the sum of the counted rows' results, the NULL sum included |
| Serializers.GetResultAppend | app/api/serializers.py:136-140 | the total over two batches of rows is the sum of their totals |
| Serializers.GetResultDependsOnSets | app/api/serializers.py:134-139 | the total depends on the roster only through its sets of players and of tours |
| Serializers.GetResultCrossProduct | app/api/serializers.py:134-139 | a row counts when its player is in one slot and its tour in another, with no slot pairing them |
| Serializers.SlotRows | app/api/serializers.py:111-112 | a slot lists exactly the rows whose player and tour equal its own, NULL matching NULL |
| Serializers.SlotMatchResults | app/api/serializers.py:111-114 | the listed match results are the `result` of each listed row, in order |
| Serializers.SingleSlotRows | app/api/serializers.py:109-141 | for a slot with player and tour set, its listed rows are exactly the rows a one-slot team adds up, and the total is their sum |
| Serializers.SlotRowsAreCounted | app/api/serializers.py:111-139 | a row listed under a fully linked slot is counted in the team's total |
| Serializers.NullPlayerSlot | app/api/serializers.py:111-139 | a slot without a player lists the rows without a player, which the team total never counts |
| Serializers.RepresentSlot | app/api/serializers.py:109-115 | a slot's representation keeps its links and lists its rows' results |
| Serializers.RepresentTeam | app/api/serializers.py:143-146 | the representation copies the stored columns except `result`, which becomes the recomputed total. It lists every slot with its match results |
| Serializers.StoredResultIgnored | app/api/serializers.py:143-146 | the stored `result` column never affects the representation |

## Left out

- HTTP transport is not modelled: `requests`, URL building, headers, `sleep(1)` between retries, and JSON decoding (a body that fails to decode). A response is an `(ok, body)` pair.
- `DotaApiConnector.get` and `post` are thin transport wrappers and are not modelled. `post` issues a GET.
- Connectors.InLeague: a `leagueid` that is a JSON float, list or object is not modelled. Python prints those as `1.0`, `[...]` or `{...}`. Summaries are modelled as objects of integer, string, boolean or null fields.
- Connectors.GetMatchesId: `competition_id` is modelled as a string. A caller passing an integer would never match, because `str` is compared with `int`.
- Budget.PerformCreate: the view compares `float` values (`app/api/views.py:181`), and the model compares exact hundredths. With binary floating point, `50.0 - 49.7` is slightly below `0.30`, so the view can refuse a candidate whose cost exactly fills the balance. The model admits it. Floating point is not modelled.
- Budget.PerformUpdate: which roster slot the update edits (`at`) is an input. The ORM's lookup of the instance is not modelled.
- The `except KeyError` handlers in the budget views never fire, since nothing in the `try` raises `KeyError`. Only the escaping `AttributeError` is modelled.
- The 404 branches of the rating views are not modelled. They catch `Competition.DoesNotExist`, while `get_object` raises `Http404`, and the tour view also catches a competition's exception.
- Rating: the rank annotation is not part of what `FantasyTeamRatingSerializer` outputs (`user`, `result`). The model keeps it so that the ranking can be stated.
- Listing.ListFantasyTeams: the list order is modelled as table order. `FantasyTeam` declares no ordering, so the database's order is unspecified.
- Listing.ListFantasyTeams: a competition id in a query parameter that names no competition is refused by the filter set's validation (a 400 response). The model lists nothing for it instead.
- Rating: the sliced query has no outer `ORDER BY`, so the database chooses both the order of the rows and which 100 rows the `[:100]` cut keeps. The model orders the rows by the window's best-first order, with ties in input order (`Rating.SortDescKeepsTieOrder`), and cuts that order. `Rate`'s top-slice property (`TopOf`) therefore comes from this chosen order; PostgreSQL promises neither it nor an order within a tie.
- Serializers.SlotRows: the order of a slot's listed rows is modelled as table order. The query specifies none.
- Sign-up user and token creation, the transaction and the `print` in `app/api/serializers.py:26-31` are not modelled. Only the username rule is.
- `FantasyTeamCreateSerializer.to_representation` (`app/api/serializers.py:155-156`) delegates to the team representation, which `Serializers.RepresentTeam` models. The other serializers only list fields.
- The Django ORM, DRF routing, viewset dispatch (`get_serializer_class`), authentication and permissions are not modelled.
- These files are out of scope: `app/api/urls.py`, `app/api/filters.py`, `app/fantasy/admin.py`, `app/users/models.py`, `app/core/settings.py` (configuration, including the scoring coefficient table that no shown code reads), `app/core/celery_app.py` and `app/fantasy/tasks.py`.
- Scoring, series scaling, tour classification and match ingestion are not modelled, because no code for them exists in the files.
- Image, date and text columns that no rule reads (icons, dates, `dota_id` of teams) are not modelled.

=== FILE: base.dfy ===
/**
 Small building blocks shared by the rest of the model: an option type for
 nullable database columns and optional request fields, and the sequence
 filter and sum that stand in for Django's `filter()` and `Sum()` over a
 queryset (a queryset is modelled as the sequence of its rows).
 */
module Base {

  /** A nullable value: `None` is SQL NULL or Python `None`. */
  datatype Option<+T> = None | Some(value: T)

  /** The rows of `s` that satisfy `p`, in their original order. */
  function Filter<T(!new)>(s: seq<T>, p: T -> bool): (r: seq<T>)
    ensures |r| <= |s|
    ensures forall i :: 0 <= i < |r| ==> p(r[i])
    ensures forall x :: multiset(r)[x] == if p(x) then multiset(s)[x] else 0
  {
    if |s| == 0 then []
    else
      assert s == [s[0]] + s[1..];
      if p(s[0]) then [s[0]] + Filter(s[1..], p) else Filter(s[1..], p)
  }

  /** Filtering distributes over concatenation, so it keeps the relative order of rows. */
  lemma {:induction false} FilterAppend<T(!new)>(a: seq<T>, b: seq<T>, p: T -> bool)
    ensures Filter(a + b, p) == Filter(a, p) + Filter(b, p)
  {
    if |a| == 0 {
      assert a + b == b;
    } else {
      assert (a + b)[1..] == a[1..] + b;
      FilterAppend(a[1..], b, p);
    }
  }

  /** Filtering a row followed by more rows: that row, if it passes, then the rest filtered. */
  lemma FilterCons<T(!new)>(a: T, t: seq<T>, p: T -> bool)
    ensures Filter([a] + t, p) == (if p(a) then [a] else []) + Filter(t, p)
  {
    assert ([a] + t)[1..] == t;
  }

  /** Filtering a non-empty sequence: its first row, if it passes, then the rest filtered. */
  lemma FilterHead<T(!new)>(s: seq<T>, p: T -> bool)
    requires |s| > 0
    ensures Filter(s, p) == (if p(s[0]) then [s[0]] else []) + Filter(s[1..], p)
  {
  }

  /** Filters with predicates that agree on every row keep the same rows. */
  lemma {:induction false} FilterAgree<T(!new)>(s: seq<T>, p: T -> bool, q: T -> bool)
    requires forall i :: 0 <= i < |s| ==> p(s[i]) == q(s[i])
    ensures Filter(s, p) == Filter(s, q)
  {
    if |s| > 0 {
      FilterAgree(s[1..], p, q);
    }
  }

  /** The arithmetic sum of a sequence; the empty sum is 0. */
  function Sum(xs: seq<int>): int
  {
    if |xs| == 0 then 0 else xs[0] + Sum(xs[1..])
  }

  lemma {:induction false} SumAppend(a: seq<int>, b: seq<int>)
    ensures Sum(a + b) == Sum(a) + Sum(b)
  {
    if |a| == 0 {
      assert a + b == b;
    } else {
      assert (a + b)[1..] == a[1..] + b;
      SumAppend(a[1..], b);
    }
  }
}

=== FILE: budget.dfy ===
/**
 Roster budget admission for a fantasy team's roster in one tour
 (`FantasyPlayerViewSet.perform_create` and `perform_update`).

 A candidate player is saved to the roster only when the tour's editing window
 is open and the candidate's cost is at most the allowable balance: the budget
 of 50.00, minus the cost of the whole roster, plus the cost of the roster's
 players that have the candidate's role (the ones the candidate is meant to
 replace). A refused candidate is dropped silently: nothing is saved and no
 error is returned. Costs are in hundredths.
 */
module Budget {
  import opened Base
  import opened Constants
  import opened Models

  /** The roster budget, 50.00. */
  const Cap: int := 5000

  /** The tour a roster belongs to, reduced to whether its editing window is open now. */
  datatype CompetitionTour = CompetitionTour(id: nat, isEditingAllowed: bool)

  /**
   A roster slot: `Models.FantasyPlayer` projected to the player record it
   links to, which is NULL once the player row is deleted.
   */
  datatype Slot = Slot(player: Option<Player>)

  /**
   A fantasy team's entry for one tour (`FantasyTeamTour`) projected to its tour
   (a nullable link) and its roster; `Rating.TeamTourEntry` projects the same
   record to what the tour rating reads.
   */
  datatype TeamTour = TeamTour(tour: Option<CompetitionTour>, roster: seq<Slot>)

  /** What the request handler does with the validated request. */
  datatype Outcome =
    | Saved(roster: seq<Slot>)  // the serializer saved the slot; the resulting roster
    | Ignored                   // the budget or the editing window refused it; nothing happens
    | Raised                    // a NULL link was dereferenced; the exception escapes the handler

  function SlotCost(s: Slot): int
  {
    if s.player.Some? then s.player.value.cost else 0
  }

  predicate HasRole(s: Slot, role: GameRole)
  {
    s.player.Some? && s.player.value.gameRole == role
  }

  /** `Sum('player__cost')` over the roster, with an empty (NULL) sum read as 0. */
  function RosterCost(roster: seq<Slot>): int
  {
    if |roster| == 0 then 0 else SlotCost(roster[0]) + RosterCost(roster[1..])
  }

  /** The same sum restricted to slots whose player has `role`. */
  function RoleCost(roster: seq<Slot>, role: GameRole): int
  {
    if |roster| == 0 then 0
    else (if HasRole(roster[0], role) then SlotCost(roster[0]) else 0) + RoleCost(roster[1..], role)
  }

  /** The cost of the slots that do not hold a player of `role` */
  function OtherRoleCost(roster: seq<Slot>, role: GameRole): int
  {
    if |roster| == 0 then 0
    else (if HasRole(roster[0], role) then 0 else SlotCost(roster[0])) + OtherRoleCost(roster[1..], role)
  }

  /** The roster with every slot of `role` taken out. */
  function WithoutRole(roster: seq<Slot>, role: GameRole): (r: seq<Slot>)
    ensures forall i :: 0 <= i < |r| ==> !HasRole(r[i], role)
  {
    Filter(roster, (s: Slot) => !HasRole(s, role))
  }

  /** The balance the view computes: budget - roster cost + cost of same-role slots. */
  function AllowableBalance(roster: seq<Slot>, role: GameRole): int
  {
    Cap - RosterCost(roster) + RoleCost(roster, role)
  }

  /** The admission test of the view, once every link it follows is present. */
  predicate Admits(tour: CompetitionTour, roster: seq<Slot>, p: Player)
  {
    tour.isEditingAllowed && p.cost <= AllowableBalance(roster, p.gameRole)
  }

  /** A roster's cost splits into its same-role part and the rest. */
  lemma {:induction false} RosterCostSplit(roster: seq<Slot>, role: GameRole)
    ensures RosterCost(roster) == RoleCost(roster, role) + OtherRoleCost(roster, role)
  {
    if |roster| > 0 {
      RosterCostSplit(roster[1..], role);
    }
  }

  /** The other-role cost is the cost of the roster with the role's slots removed. */
  lemma {:induction false} OtherRoleCostIsWithoutRole(roster: seq<Slot>, role: GameRole)
    ensures OtherRoleCost(roster, role) == RosterCost(WithoutRole(roster, role))
  {
    if |roster| > 0 {
      OtherRoleCostIsWithoutRole(roster[1..], role);
      if !HasRole(roster[0], role) {
        assert WithoutRole(roster, role) == [roster[0]] + WithoutRole(roster[1..], role);
        assert ([roster[0]] + WithoutRole(roster[1..], role))[1..] == WithoutRole(roster[1..], role);
      }
    }
  }

  lemma {:induction false} RosterCostAppend(a: seq<Slot>, b: seq<Slot>)
    ensures RosterCost(a + b) == RosterCost(a) + RosterCost(b)
  {
    if |a| == 0 {
      assert a + b == b;
    } else {
      assert (a + b)[1..] == a[1..] + b;
      RosterCostAppend(a[1..], b);
    }
  }

  /**
   The admission test, restated: the editing window is open and the candidate
   together with the slots of the OTHER roles fits within the budget.
   */
  lemma AdmitsIffOthersFit(tour: CompetitionTour, roster: seq<Slot>, p: Player)
    ensures Admits(tour, roster, p) <==> tour.isEditingAllowed && p.cost + OtherRoleCost(roster, p.gameRole) <= Cap
  {
    RosterCostSplit(roster, p.gameRole);
  }

  /** `perform_create`: follow the links, test the budget, and append the new slot if admitted. */
  function PerformCreate(tt: Option<TeamTour>, player: Option<Player>): (r: Outcome)
    ensures r.Raised? <==> tt.None? || player.None? || tt.value.tour.None?
    ensures r.Saved? <==>
      && !r.Raised?
      && tt.value.tour.value.isEditingAllowed
      && player.value.cost + OtherRoleCost(tt.value.roster, player.value.gameRole) <= Cap
    ensures r.Saved? ==> r.roster == tt.value.roster + [Slot(player)]
  {
    if tt.None? || player.None? || tt.value.tour.None? then Raised
    else
      AdmitsIffOthersFit(tt.value.tour.value, tt.value.roster, player.value);
      if Admits(tt.value.tour.value, tt.value.roster, player.value) then Saved(tt.value.roster + [Slot(player)])
      else Ignored
  }

  /**
   `perform_update`: the same test on the target roster. `at` is the position
   of the edited slot in that roster; a position past the end stands for a slot
   that currently belongs to another roster and moves into this one.
   */
  function PerformUpdate(tt: Option<TeamTour>, player: Option<Player>, at: nat): (r: Outcome)
    ensures r.Raised? <==> tt.None? || player.None? || tt.value.tour.None?
    ensures r.Saved? <==>
      && !r.Raised?
      && tt.value.tour.value.isEditingAllowed
      && player.value.cost + OtherRoleCost(tt.value.roster, player.value.gameRole) <= Cap
    ensures r.Saved? && at < |tt.value.roster| ==> r.roster == tt.value.roster[at := Slot(player)]
    ensures r.Saved? && at >= |tt.value.roster| ==> r.roster == tt.value.roster + [Slot(player)]
  {
    if tt.None? || player.None? || tt.value.tour.None? then Raised
    else
      var roster := tt.value.roster;
      AdmitsIffOthersFit(tt.value.tour.value, roster, player.value);
      if Admits(tt.value.tour.value, roster, player.value) then
        Saved(if at < |roster| then roster[at := Slot(player)] else roster + [Slot(player)])
      else Ignored
  }

  /** With the editing window closed nothing is saved, whatever the cost; a refusal is silent. */
  lemma ClosedWindowSavesNothing(tt: TeamTour, player: Player, at: nat)
    requires tt.tour.Some? && !tt.tour.value.isEditingAllowed
    ensures PerformCreate(Some(tt), Some(player)) == Ignored
    ensures PerformUpdate(Some(tt), Some(player), at) == Ignored
  {
  }

  /** On an empty roster (both sums are NULL, read as 0) a candidate is admitted iff its cost is at most 50.00. */
  lemma EmptyRosterAdmission(tour: CompetitionTour, player: Player)
    requires tour.isEditingAllowed
    ensures PerformCreate(Some(TeamTour(Some(tour), [])), Some(player)).Saved? <==> player.cost <= Cap
  {
  }

  /** A cheaper candidate of the same role is admitted wherever a dearer one is. */
  lemma AdmissionMonotone(tt: TeamTour, p: Player, q: Player)
    requires q.gameRole == p.gameRole && q.cost <= p.cost
    requires PerformCreate(Some(tt), Some(p)).Saved?
    ensures PerformCreate(Some(tt), Some(q)).Saved?
  {
  }

  /** Update and create take the same decision on the same request. */
  lemma UpdateAgreesWithCreate(tt: Option<TeamTour>, player: Option<Player>, at: nat)
    ensures PerformUpdate(tt, player, at).Saved? <==> PerformCreate(tt, player).Saved?
    ensures PerformUpdate(tt, player, at).Ignored? <==> PerformCreate(tt, player).Ignored?
    ensures PerformUpdate(tt, player, at).Raised? <==> PerformCreate(tt, player).Raised?
  {
  }

  /**
   What the rule guarantees: once the same-role slots are replaced by the
   admitted candidate, the roster costs at most 50.00.
   */
  lemma AdmittedSwapFitsCap(tt: TeamTour, p: Player)
    requires PerformCreate(Some(tt), Some(p)).Saved?
    ensures RosterCost(WithoutRole(tt.roster, p.gameRole) + [Slot(Some(p))]) <= Cap
  {
    OtherRoleCostIsWithoutRole(tt.roster, p.gameRole);
    RosterCostAppend(WithoutRole(tt.roster, p.gameRole), [Slot(Some(p))]);
    assert [Slot(Some(p))][1..] == [];
  }

  /**
   What it does not guarantee: `perform_create` appends without removing the
   same-role slot, so two carries of 30.00 each are both admitted and the
   roster ends at 60.00.
   */
  lemma CreateCanExceedCap()
    ensures var p := Player(1, None, None, Carry, 3000);
            var tt := TeamTour(Some(CompetitionTour(1, true)), [Slot(Some(p))]);
            var r := PerformCreate(Some(tt), Some(p));
            r.Saved? && RosterCost(r.roster) == 6000
  {
    var p := Player(1, None, None, Carry, 3000);
    var roster := [Slot(Some(p))];
    assert RosterCost(roster + [Slot(Some(p))]) == 6000 by {
      RosterCostAppend(roster, [Slot(Some(p))]);
      assert roster[1..] == [];
    }
  }
}

=== FILE: connectors.dfy ===
/**
 The client of the upstream match statistics API (`DotaApiConnector`).

 The HTTP transport is not modelled: a response is its `ok` flag (a status
 below 400) together with its already decoded JSON body, and the sequence of
 responses a run of retries would receive is an input function `fetch`, where
 `fetch(k)` is the response to the k-th request (counting from 0).
 */
module Connectors {
  import opened Base

  /** A JSON value that holds no other value; numbers are integers. */
  datatype Scalar = Null | Bool(b: bool) | Num(n: int) | Str(s: string)

  /** A decoded JSON document. */
  datatype Json = Leaf(v: Scalar) | Arr(items: seq<Json>) | Obj(fields: map<string, Json>)

  datatype Response<B> = Response(ok: bool, body: B)

  /** The `{}` returned when there is nothing to return. */
  const EmptyObject: Json := Obj(map[])

  /** Retries after a failed first request in `get_match_info`. */
  const Retries: nat := 10

  // ---------------------------------------------------------------------------
  // Python's str() of the scalar values a match summary holds

  predicate IsDigit(c: char)
  {
    '0' <= c <= '9'
  }

  function DigitChar(d: nat): (c: char)
    requires d < 10
    ensures IsDigit(c)
  {
    ('0' as int + d) as char
  }

  /** Decimal digits of a natural number, most significant first, without leading zeros. */
  function NatToString(n: nat): (r: string)
    ensures |r| > 0
    ensures forall i :: 0 <= i < |r| ==> IsDigit(r[i])
  {
    if n < 10 then [DigitChar(n)] else NatToString(n / 10) + [DigitChar(n % 10)]
  }

  /** Reads a string of decimal digits back as a number. */
  function ParseDigits(s: string): int
    requires forall i :: 0 <= i < |s| ==> IsDigit(s[i])
  {
    if |s| == 0 then 0 else 10 * ParseDigits(s[..|s| - 1]) + (s[|s| - 1] as int - '0' as int)
  }

  lemma {:induction false} NatToStringRoundTrip(n: nat)
    ensures ParseDigits(NatToString(n)) == n
  {
    if n >= 10 {
      var s := NatToString(n);
      assert s[..|s| - 1] == NatToString(n / 10);
      NatToStringRoundTrip(n / 10);
    }
  }

  /** `str(n)` for an integer `n`. */
  function IntToString(i: int): string
  {
    if i < 0 then "-" + NatToString(-i) else NatToString(i)
  }

  /** An integer prints with a leading minus sign exactly when it is negative, and with a digit otherwise. */
  lemma IntToStringHead(i: int)
    ensures |IntToString(i)| > 0
    ensures IntToString(i)[0] == '-' <==> i < 0
    ensures i >= 0 ==> IsDigit(IntToString(i)[0])
  {
  }

  /** Distinct integers print differently, so comparing printed league ids compares the ids. */
  lemma IntToStringInjective(a: int, b: int)
    requires IntToString(a) == IntToString(b)
    ensures a == b
  {
    IntToStringHead(a);
    IntToStringHead(b);
    if a >= 0 && b >= 0 {
      NatToStringRoundTrip(a);
      NatToStringRoundTrip(b);
    } else if a < 0 && b < 0 {
      assert NatToString(-a) == IntToString(a)[1..];
      assert NatToString(-b) == IntToString(b)[1..];
      NatToStringRoundTrip(-a);
      NatToStringRoundTrip(-b);
    }
  }

  /** Python's `str()` of a scalar JSON value. */
  function StrOf(v: Scalar): string
  {
    match v
    case Null => "None"
    case Bool(b) => if b then "True" else "False"
    case Num(n) => IntToString(n)
    case Str(s) => s
  }

  // ---------------------------------------------------------------------------
  // get_matches_id: the match ids of one league among a team's matches

  /** One decoded match summary: a JSON object whose fields hold scalars. */
  type Record = map<string, Scalar>

  /** `dict.get(key, default)`. */
  function Get(r: Record, key: string, default: Scalar): Scalar
  {
    if key in r then r[key] else default
  }

  /** `match.get('match_id', 0)`. */
  function MatchIdOf(r: Record): Scalar
  {
    Get(r, "match_id", Num(0))
  }

  /** `str(match.get('leagueid', 0)) == competition_id`. */
  predicate InLeague(r: Record, competitionId: string)
  {
    StrOf(Get(r, "leagueid", Num(0))) == competitionId
  }

  function MatchIdsOf(rs: seq<Record>): (ids: seq<Scalar>)
    ensures |ids| == |rs|
    ensures forall i :: 0 <= i < |rs| ==> ids[i] == MatchIdOf(rs[i])
  {
    seq(|rs|, i requires 0 <= i < |rs| => MatchIdOf(rs[i]))
  }

  /** The summaries of one league, in response order. */
  function LeagueMatches(rs: seq<Record>, competitionId: string): (r: seq<Record>)
  {
    Filter(rs, (m: Record) => InLeague(m, competitionId))
  }

  lemma LeagueMatchesSnoc(rs: seq<Record>, m: Record, competitionId: string)
    ensures LeagueMatches(rs + [m], competitionId) ==
      LeagueMatches(rs, competitionId) + (if InLeague(m, competitionId) then [m] else [])
  {
    FilterAppend(rs, [m], (m: Record) => InLeague(m, competitionId));
    assert [m][1..] == [];
  }

  lemma MatchIdsOfSnoc(rs: seq<Record>, m: Record)
    ensures MatchIdsOf(rs + [m]) == MatchIdsOf(rs) + [MatchIdOf(m)]
  {
  }

  /** One pass of the loop of `get_matches_id` extends the ids by the summary's id exactly when it is in the league. */
  lemma MatchIdsStep(data: seq<Record>, i: nat, competitionId: string)
    requires i < |data|
    ensures MatchIdsOf(LeagueMatches(data[..i + 1], competitionId)) ==
      MatchIdsOf(LeagueMatches(data[..i], competitionId)) + (if InLeague(data[i], competitionId) then [MatchIdOf(data[i])] else [])
  {
    assert data[..i + 1] == data[..i] + [data[i]];
    LeagueMatchesSnoc(data[..i], data[i], competitionId);
    if InLeague(data[i], competitionId) {
      MatchIdsOfSnoc(LeagueMatches(data[..i], competitionId), data[i]);
    }
  }

  /** What `get_matches_id` returns: the list of ids, or the empty string for a failed request. */
  datatype MatchIds = Ids(ids: seq<Scalar>) | EmptyString

  /**
   `get_matches_id`: for an ok response, the match ids of exactly the
   summaries whose printed league id equals `competitionId`, in response
   order; for a failed one, the empty string rather than a list.
   */
  method GetMatchesId(response: Response<seq<Record>>, competitionId: string) returns (r: MatchIds)
    ensures !response.ok <==> r == EmptyString
    ensures response.ok ==> r.Ids? && r.ids == MatchIdsOf(LeagueMatches(response.body, competitionId))
  {
    if !response.ok {
      return EmptyString;
    }
    var data := response.body;
    var allMatches: seq<Scalar> := [];
    for i := 0 to |data|
      invariant allMatches == MatchIdsOf(LeagueMatches(data[..i], competitionId))
    {
      var matchId := Get(data[i], "match_id", Num(0));
      var leagueId := StrOf(Get(data[i], "leagueid", Num(0)));
      MatchIdsStep(data, i, competitionId);
      if leagueId == competitionId {
        allMatches := allMatches + [matchId];
      }
    }
    assert data[..|data|] == data;
    return Ids(allMatches);
  }

  /**
   For a league id written the way `str` prints an integer `k`, a summary
   matches exactly when its `leagueid` is the number `k`, the string of `k`,
   or absent while `k` is 0. A null or boolean `leagueid` prints as `None`,
   `True` or `False` and never matches.
   */
  lemma InLeagueNumeric(r: Record, k: int)
    ensures InLeague(r, IntToString(k)) <==>
      || ("leagueid" !in r && k == 0)
      || ("leagueid" in r && r["leagueid"] == Num(k))
      || ("leagueid" in r && r["leagueid"] == Str(IntToString(k)))
  {
    var v := Get(r, "leagueid", Num(0));
    IntToStringHead(k);
    match v
    case Num(n) =>
      if StrOf(v) == IntToString(k) {
        IntToStringInjective(n, k);
      }
    case Null =>
      assert StrOf(v)[0] == 'N';
    case Bool(b) =>
      assert StrOf(v)[0] == 'T' || StrOf(v)[0] == 'F';
    case Str(s) =>
  }

  // ---------------------------------------------------------------------------
  // get_league_matches_id: the body if it is worth anything, else {}

  /** Python truthiness of a decoded JSON value. */
  predicate Truthy(j: Json)
  {
    match j
    case Leaf(Null) => false
    case Leaf(Bool(b)) => b
    case Leaf(Num(n)) => n != 0
    case Leaf(Str(s)) => |s| > 0
    case Arr(items) => |items| > 0
    case Obj(fields) => |fields| > 0
  }

  /**
   `get_league_matches_id`: a failed request and an ok request with an empty
   (falsy) body both give `{}`; callers can only tell "data" from "no data".
   */
  function GetLeagueMatchesId(response: Response<Json>): (r: Json)
    ensures Truthy(r) <==> response.ok && Truthy(response.body)
    ensures Truthy(r) ==> r == response.body
    ensures !Truthy(r) ==> r == EmptyObject
  {
    if response.ok && Truthy(response.body) then response.body else EmptyObject
  }

  // ---------------------------------------------------------------------------
  // get_match_info: one request plus up to ten retries

  /**
   `get_match_info`: returns the body of the first ok response among at most
   eleven requests, and `{}` when all eleven fail. `requests` is the number of
   GET requests issued; none is issued after the first ok response.
   */
  method GetMatchInfo(fetch: nat -> Response<Json>) returns (info: Json, requests: nat)
    ensures 1 <= requests <= Retries + 1
    ensures forall k :: 0 <= k < requests - 1 ==> !fetch(k).ok
    ensures fetch(requests - 1).ok ==> info == fetch(requests - 1).body
    ensures !fetch(requests - 1).ok ==> requests == Retries + 1 && info == EmptyObject
  {
    var response := fetch(0);
    requests := 1;
    if response.ok {
      return response.body, requests;
    }
    var counter := Retries;
    while counter > 0 && !response.ok
      invariant 0 <= counter <= Retries
      invariant requests == Retries + 1 - counter
      invariant response == fetch(requests - 1) && !response.ok
      invariant forall k :: 0 <= k < requests ==> !fetch(k).ok
    {
      counter := counter - 1;
      response := fetch(requests);
      requests := requests + 1;
      if response.ok {
        return response.body, requests;
      }
    }
    return EmptyObject, requests;
  }

  /** The index of the first ok response among the first `n`, or `None` when all of them failed. */
  function FirstOk(fetch: nat -> Response<Json>, n: nat): (r: Option<nat>)
    ensures r.Some? ==> r.value < n && fetch(r.value).ok && forall k :: 0 <= k < r.value ==> !fetch(k).ok
    ensures r.None? ==> forall k :: 0 <= k < n ==> !fetch(k).ok
  {
    if n == 0 then None
    else
      var earlier := FirstOk(fetch, n - 1);
      if earlier.Some? then earlier
      else if fetch(n - 1).ok then Some(n - 1)
      else None
  }

  /** The retry loop ends at the first ok response within eleven requests, or gives `{}` when there is none. */
  lemma MatchInfoAgreesWithFirstOk(fetch: nat -> Response<Json>, info: Json, requests: nat)
    requires 1 <= requests <= Retries + 1
    requires forall k :: 0 <= k < requests - 1 ==> !fetch(k).ok
    requires fetch(requests - 1).ok ==> info == fetch(requests - 1).body
    requires !fetch(requests - 1).ok ==> requests == Retries + 1 && info == EmptyObject
    ensures FirstOk(fetch, Retries + 1).Some? ==>
      requests == FirstOk(fetch, Retries + 1).value + 1 && info == fetch(requests - 1).body
    ensures FirstOk(fetch, Retries + 1).None? ==> info == EmptyObject && requests == Retries + 1
  {
  }
}

=== FILE: constants.dfy ===
/**
 The two string enumerations of the fantasy application: the status of a
 competition and the in-game role of a player. Each member carries the string
 value the database stores, and `choices()` turns an enumeration into the
 `(value, label)` pairs a Django `CharField(choices=...)` accepts; both
 enumerations use the value as its own label.
 */
module Constants {
  import opened Base

  /** `CompetitionStatusEnum`. */
  datatype CompetitionStatus = NotStarted | Started | Finished
  {
    function Value(): string
    {
      match this
      case NotStarted => "NOT STARTED"
      case Started => "STARTED"
      case Finished => "FINISHED"
    }
  }

  /** `GameRoleEnum`. */
  datatype GameRole = Carry | Mid | Hard | Support4 | Support5
  {
    function Value(): string
    {
      match this
      case Carry => "CARRY"
      case Mid => "MID"
      case Hard => "HARD"
      case Support4 => "SUPPORT_4"
      case Support5 => "SUPPORT_5"
    }
  }

  /** The members of each enumeration in declaration order, as `for e in cls` visits them. */
  const Statuses: seq<CompetitionStatus> := [NotStarted, Started, Finished]
  const Roles: seq<GameRole> := [Carry, Mid, Hard, Support4, Support5]

  function StatusValues(): seq<string>
  {
    seq(|Statuses|, i requires 0 <= i < |Statuses| => Statuses[i].Value())
  }

  function RoleValues(): seq<string>
  {
    seq(|Roles|, i requires 0 <= i < |Roles| => Roles[i].Value())
  }

  /** `choices()`: one `(value, value)` pair per member value, in the given order. */
  function Choices(values: seq<string>): (r: seq<(string, string)>)
    ensures |r| == |values|
    ensures forall i :: 0 <= i < |r| ==> r[i].0 == values[i] && r[i].1 == values[i]
  {
    if |values| == 0 then [] else [(values[0], values[0])] + Choices(values[1..])
  }

  /** The stored values a choices list admits (its first components). */
  function ChoiceKeys(choices: seq<(string, string)>): seq<string>
  {
    seq(|choices|, i requires 0 <= i < |choices| => choices[i].0)
  }

  /** `CompetitionStatusEnum(s)`: the member whose value is `s`, if any. */
  function ParseStatus(s: string): (r: Option<CompetitionStatus>)
    ensures r.Some? ==> r.value.Value() == s
  {
    if s == "NOT STARTED" then Some(NotStarted)
    else if s == "STARTED" then Some(Started)
    else if s == "FINISHED" then Some(Finished)
    else None
  }

  /** `GameRoleEnum(s)`: the member whose value is `s`, if any. */
  function ParseRole(s: string): (r: Option<GameRole>)
    ensures r.Some? ==> r.value.Value() == s
  {
    if s == "CARRY" then Some(Carry)
    else if s == "MID" then Some(Mid)
    else if s == "HARD" then Some(Hard)
    else if s == "SUPPORT_4" then Some(Support4)
    else if s == "SUPPORT_5" then Some(Support5)
    else None
  }

  /** Reading back a choices list's keys gives the values it was built from. */
  lemma ChoiceKeysRoundTrip(values: seq<string>)
    ensures ChoiceKeys(Choices(values)) == values
  {
  }

  /** The status choices: exactly three `(value, value)` pairs, in declaration order, with distinct keys. */
  lemma StatusChoicesShape()
    ensures |Choices(StatusValues())| == 3
    ensures ChoiceKeys(Choices(StatusValues())) == ["NOT STARTED", "STARTED", "FINISHED"]
    ensures forall p :: p in Choices(StatusValues()) ==> p.0 == p.1
    ensures forall i, j :: 0 <= i < j < 3 ==> Choices(StatusValues())[i].0 != Choices(StatusValues())[j].0
  {
    ChoiceKeysRoundTrip(StatusValues());
    assert StatusValues() == ["NOT STARTED", "STARTED", "FINISHED"];
  }

  /** The role choices: exactly five `(value, value)` pairs, in declaration order, with distinct keys. */
  lemma RoleChoicesShape()
    ensures |Choices(RoleValues())| == 5
    ensures ChoiceKeys(Choices(RoleValues())) == ["CARRY", "MID", "HARD", "SUPPORT_4", "SUPPORT_5"]
    ensures forall p :: p in Choices(RoleValues()) ==> p.0 == p.1
    ensures forall i, j :: 0 <= i < j < 5 ==> Choices(RoleValues())[i].0 != Choices(RoleValues())[j].0
  {
    ChoiceKeysRoundTrip(RoleValues());
    assert RoleValues() == ["CARRY", "MID", "HARD", "SUPPORT_4", "SUPPORT_5"];
  }

  /** Every status is listed once, and parsing its value gives it back; nothing else parses. */
  lemma StatusValueRoundTrip(st: CompetitionStatus, s: string)
    ensures st in Statuses
    ensures ParseStatus(st.Value()) == Some(st)
    ensures ParseStatus(s).Some? <==> s in StatusValues()
  {
    assert StatusValues() == ["NOT STARTED", "STARTED", "FINISHED"];
  }

  /** Every role is listed once, and parsing its value gives it back; nothing else parses. */
  lemma RoleValueRoundTrip(role: GameRole, s: string)
    ensures role in Roles
    ensures ParseRole(role.Value()) == Some(role)
    ensures ParseRole(s).Some? <==> s in RoleValues()
  {
    assert RoleValues() == ["CARRY", "MID", "HARD", "SUPPORT_4", "SUPPORT_5"];
  }

  /** Distinct members have distinct values, so no two choices share a key. */
  lemma ValuesInjective()
    ensures forall a: CompetitionStatus, b: CompetitionStatus :: a.Value() == b.Value() ==> a == b
    ensures forall a: GameRole, b: GameRole :: a.Value() == b.Value() ==> a == b
  {
    forall a: GameRole, b: GameRole | a.Value() == b.Value()
      ensures a == b
    {
      assert ParseRole(a.Value()) == Some(a);
    }
    forall a: CompetitionStatus, b: CompetitionStatus | a.Value() == b.Value()
      ensures a == b
    {
      assert ParseStatus(a.Value()) == Some(a);
    }
  }
}

=== FILE: listing.dfy ===
/**
 Listing fantasy teams (`FantasyTeamViewSet.filter_queryset`): a user only ever
 sees the fantasy teams whose owner is that user. The filter set then applies
 the optional query parameters `?competition=` (one competition, exact) and
 `?competition__in=` (any of a set of competitions); a team with no
 competition matches neither.
 */
module Listing {
  import opened Base
  import opened Models

  predicate Owned(t: FantasyTeam, user: nat)
  {
    t.user == Some(user)
  }

  /** `queryset.filter(user=request.user)`. A team without an owner is nobody's. */
  function OwnedBy(teams: seq<FantasyTeam>, user: nat): (r: seq<FantasyTeam>)
    ensures forall i :: 0 <= i < |r| ==> r[i].user == Some(user)
    ensures forall t :: t in teams && t.user == Some(user) ==> t in r
    ensures forall t :: t in r ==> t in teams
    ensures forall t :: multiset(r)[t] == if t.user == Some(user) then multiset(teams)[t] else 0
  {
    var r := Filter(teams, (t: FantasyTeam) => Owned(t, user));
    assert forall t :: t in r <==> multiset(r)[t] > 0;
    assert forall t :: t in teams <==> multiset(teams)[t] > 0;
    r
  }

  /**
   The query parameters of the list endpoint's filter set. An absent or empty
   `competition` is `None`. `competitionIn` holds the ids of the comma-separated
   `competition__in`: `?competition__in=` with no ids is `Some({})`, which,
   like an absent parameter, filters nothing out.
   */
  datatype Query = Query(competition: Option<nat>, competitionIn: Option<set<nat>>)

  /** Neither competition parameter given. */
  const NoQuery := Query(None, None)

  /** `competition__in` with ids given: the team's competition is set and is one of them. */
  predicate InCompetitions(t: FantasyTeam, ids: set<nat>)
  {
    t.competition.Some? && t.competition.value in ids
  }

  /** Whether the list endpoint shows team `t` to `requester`, given the query parameters. */
  predicate Listed(t: FantasyTeam, requester: nat, q: Query)
  {
    && Owned(t, requester)
    && (q.competition.None? || t.competition == q.competition)
    && (q.competitionIn.None? || q.competitionIn.value == {} || InCompetitions(t, q.competitionIn.value))
  }

  /** The list endpoint: the requester's teams, then the optional competition lookups, both applied. */
  function ListFantasyTeams(teams: seq<FantasyTeam>, requester: nat, q: Query): (r: seq<FantasyTeam>)
    ensures forall i :: 0 <= i < |r| ==> r[i].user == Some(requester)
    ensures q.competition.Some? ==> forall i :: 0 <= i < |r| ==> r[i].competition == q.competition
    ensures q.competitionIn.Some? && q.competitionIn.value != {} ==> forall i :: 0 <= i < |r| ==>
      r[i].competition.Some? && r[i].competition.value in q.competitionIn.value
    ensures forall t :: t in r <==>
      && t in teams
      && t.user == Some(requester)
      && (q.competition.None? || t.competition == q.competition)
      && (q.competitionIn.None? || q.competitionIn.value == {} ||
          (t.competition.Some? && t.competition.value in q.competitionIn.value))
  {
    var r := Filter(teams, (t: FantasyTeam) => Listed(t, requester, q));
    assert forall t :: t in r <==> multiset(r)[t] > 0;
    assert forall t :: t in teams <==> multiset(teams)[t] > 0;
    r
  }

  /** Without the competition parameters the listing is exactly the owner filter. */
  lemma {:induction false} ListingWithoutCompetition(teams: seq<FantasyTeam>, requester: nat)
    ensures ListFantasyTeams(teams, requester, NoQuery) == OwnedBy(teams, requester)
  {
    if |teams| > 0 {
      ListingWithoutCompetition(teams[1..], requester);
    }
  }

  /** `?competition__in=` with no ids filters nothing out: it lists what leaving the parameter out lists. */
  lemma {:induction false} EmptyInFiltersNothing(teams: seq<FantasyTeam>, requester: nat, competition: Option<nat>)
    ensures ListFantasyTeams(teams, requester, Query(competition, Some({}))) == ListFantasyTeams(teams, requester, Query(competition, None))
  {
    if |teams| > 0 {
      EmptyInFiltersNothing(teams[1..], requester, competition);
    }
  }

  /** Another user's listing never contains this user's teams. */
  lemma OwnedByDisjoint(teams: seq<FantasyTeam>, u: nat, v: nat)
    requires u != v
    ensures forall t :: t in OwnedBy(teams, u) ==> t !in OwnedBy(teams, v)
  {
  }

  /** Owner filtering splits over a table given in two parts, keeping the table's order. */
  lemma OwnedByAppend(a: seq<FantasyTeam>, b: seq<FantasyTeam>, u: nat)
    ensures OwnedBy(a + b, u) == OwnedBy(a, u) + OwnedBy(b, u)
  {
    FilterAppend(a, b, (t: FantasyTeam) => Owned(t, u));
  }

  /** In a table that keeps the `(user, competition)` constraint, listing one competition shows a user at most one team. */
  lemma {:induction false} ListingOneCompetitionShowsOneTeam(table: seq<FantasyTeam>, u: nat, c: nat)
    requires UniqueTeams(table)
    ensures |ListFantasyTeams(table, u, Query(Some(c), None))| <= 1
  {
    if |table| > 0 {
      assert UniqueTeams(table[1..]) by {
        forall i, j | 0 <= i < j < |table[1..]|
          ensures table[1..][i].nameExtended != table[1..][j].nameExtended
          ensures !SameUserCompetition(table[1..][i], table[1..][j])
        {
          assert table[1..][i] == table[i + 1] && table[1..][j] == table[j + 1];
        }
      }
      ListingOneCompetitionShowsOneTeam(table[1..], u, c);
    }
  }

  /** `competition__in` with a single competition lists what the exact lookup lists. */
  lemma {:induction false} SingletonInIsExact(teams: seq<FantasyTeam>, requester: nat, c: nat)
    ensures ListFantasyTeams(teams, requester, Query(None, Some({c}))) == ListFantasyTeams(teams, requester, Query(Some(c), None))
  {
    if |teams| > 0 {
      SingletonInIsExact(teams[1..], requester, c);
    }
  }
}

=== FILE: models.dfy ===
/**
 The database records of the fantasy application and the constraints the
 schema puts on them. Decimal columns with two decimal places are held as whole
 hundredths; a column declared with `max_digits = d` holds values whose
 magnitude is below `10^d` hundredths.
 */
module Models {
  import opened Base
  import opened Constants

  function Pow10(n: nat): (r: nat)
    ensures r >= 1
  {
    if n == 0 then 1 else 10 * Pow10(n - 1)
  }

  /** A value in hundredths fits a two-place `DecimalField(max_digits = digits)`. */
  predicate FitsDecimal(hundredths: int, digits: nat)
  {
    -(Pow10(digits) as int) < hundredths < Pow10(digits)
  }

  const CostDigits: nat := 4
  const ResultDigits: nat := 10
  const NameMaxLength: nat := 128

  /** `Player.cost`: `DecimalField(max_digits=4, decimal_places=2)`. */
  type Cost = c: int | FitsDecimal(c, CostDigits) witness 0

  /** `FantasyTeam.result` and `FantasyPlayer.result`: `DecimalField(max_digits=10, decimal_places=2)`. */
  type Amount = a: int | FitsDecimal(a, ResultDigits) witness 0

  /** A competition; its rating ranks the fantasy teams entered in it (`Rating.CompetitionRating`). */
  datatype Competition = Competition(
    id: nat,
    name: string,
    status: CompetitionStatus,
    dotaId: string,
    teams: set<nat>)

  datatype Player = Player(
    id: nat,
    nickname: Option<string>,
    team: Option<nat>,
    gameRole: GameRole,
    cost: Cost)

  datatype FantasyTeam = FantasyTeam(
    id: nat,
    user: Option<nat>,
    competition: Option<nat>,
    result: Amount,
    nameExtended: string)

  /**
   A roster slot. `Budget.Slot` projects it to its player record;
   `Serializers.SlotRef` reads its player link together with a tour link that
   is not a field of this record.
   */
  datatype FantasyPlayer = FantasyPlayer(
    user: Option<nat>,
    player: Option<nat>,
    fantasyTeam: Option<nat>,
    result: Amount)

  /** A cost is at most 99.99 in magnitude, and every such amount of hundredths is a cost. */
  lemma CostRange(c: int)
    ensures FitsDecimal(c, CostDigits) <==> -9999 <= c <= 9999
  {
    assert Pow10(4) == 10000;
  }

  /** A result is at most 99 999 999.99 in magnitude. */
  lemma AmountRange(a: int)
    ensures FitsDecimal(a, ResultDigits) <==> -9_999_999_999 <= a <= 9_999_999_999
  {
    assert Pow10(10) == 10_000_000_000;
  }

  /** Creating a player; a cost left out takes the column default 0. */
  function NewPlayer(id: nat, nickname: Option<string>, team: Option<nat>, role: GameRole, cost: Option<Cost>): (p: Player)
    ensures p.gameRole == role && p.id == id && p.nickname == nickname && p.team == team
    ensures cost.None? ==> p.cost == 0
    ensures cost.Some? ==> p.cost == cost.value
  {
    Player(id, nickname, team, role, if cost.Some? then cost.value else 0)
  }

  /** Creating a fantasy team or a roster slot: `result` starts at the column default 0. */
  function NewFantasyTeam(id: nat, user: Option<nat>, competition: Option<nat>, name: string): (t: FantasyTeam)
    ensures t.result == 0
    ensures t.id == id && t.user == user && t.competition == competition && t.nameExtended == name
  {
    FantasyTeam(id, user, competition, 0, name)
  }

  function NewFantasyPlayer(user: Option<nat>, player: Option<nat>, fantasyTeam: Option<nat>): (s: FantasyPlayer)
    ensures s.result == 0
    ensures s.user == user && s.player == player && s.fantasyTeam == fantasyTeam
  {
    FantasyPlayer(user, player, fantasyTeam, 0)
  }

  /**
   Model validation of a stored `status` / `game_role` string against the
   column's choices: accepted exactly when the string is one of the keys.
   */
  function CleanStatus(s: string): (r: Option<CompetitionStatus>)
    ensures r.Some? <==> s in ChoiceKeys(Choices(StatusValues()))
    ensures r.Some? ==> r.value.Value() == s
  {
    ChoiceKeysRoundTrip(StatusValues());
    StatusValueRoundTrip(NotStarted, s);
    ParseStatus(s)
  }

  function CleanRole(s: string): (r: Option<GameRole>)
    ensures r.Some? <==> s in ChoiceKeys(Choices(RoleValues()))
    ensures r.Some? ==> r.value.Value() == s
  {
    ChoiceKeysRoundTrip(RoleValues());
    RoleValueRoundTrip(Carry, s);
    ParseRole(s)
  }

  /**
   Two teams collide on the `(user, competition)` constraint. PostgreSQL treats
   NULLs as distinct in a unique constraint, so teams with a NULL user or a
   NULL competition never collide.
   */
  predicate SameUserCompetition(a: FantasyTeam, b: FantasyTeam)
  {
    a.user.Some? && a.competition.Some? && a.user == b.user && a.competition == b.competition
  }

  /** The two uniqueness constraints on the fantasy-team table. */
  predicate UniqueTeams(table: seq<FantasyTeam>)
  {
    forall i, j :: 0 <= i < j < |table| ==>
      table[i].nameExtended != table[j].nameExtended && !SameUserCompetition(table[i], table[j])
  }

  datatype InsertError = NameTooLong | DuplicateName | DuplicateUserCompetition

  datatype Inserted = Inserted(table: seq<FantasyTeam>) | Rejected(error: InsertError)

  /** Inserting a fantasy-team row; the database refuses a row that breaks a constraint. */
  function InsertTeam(table: seq<FantasyTeam>, t: FantasyTeam): (r: Inserted)
    ensures r.Inserted? <==>
      && |t.nameExtended| <= NameMaxLength
      && (forall i :: 0 <= i < |table| ==> table[i].nameExtended != t.nameExtended)
      && (forall i :: 0 <= i < |table| ==> !SameUserCompetition(table[i], t))
    ensures r.Inserted? ==> r.table == table + [t]
    ensures r.Inserted? && UniqueTeams(table) ==> UniqueTeams(r.table)
  {
    if |t.nameExtended| > NameMaxLength then Rejected(NameTooLong)
    else if exists i :: 0 <= i < |table| && table[i].nameExtended == t.nameExtended then Rejected(DuplicateName)
    else if exists i :: 0 <= i < |table| && SameUserCompetition(table[i], t) then Rejected(DuplicateUserCompetition)
    else
      var table' := table + [t];
      assert forall i :: 0 <= i < |table| ==> table'[i] == table[i];
      Inserted(table')
  }

  /** A second team of one user in one competition is refused, whatever its name. */
  lemma SecondTeamRefused(table: seq<FantasyTeam>, i: nat, t: FantasyTeam)
    requires i < |table|
    requires t.user.Some? && t.competition.Some?
    requires table[i].user == t.user && table[i].competition == t.competition
    ensures InsertTeam(table, t).Rejected?
  {
    assert SameUserCompetition(table[i], t);
  }

  /** Teams without a user never collide on `(user, competition)`: two may share a competition. */
  lemma NullUsersDoNotCollide(c: nat)
    ensures var a := NewFantasyTeam(1, None, Some(c), "a");
            var b := NewFantasyTeam(2, None, Some(c), "b");
            InsertTeam([a], b) == Inserted([a, b])
  {
  }
}

=== FILE: rating.dfy ===
/**
 The rating of a competition or of one of its tours: the fantasy teams of that
 competition (or tour) annotated with PostgreSQL's `RANK()` over `result`
 descending, cut to the first 100 rows.

 `RANK()` gives a row one plus the number of rows that sort strictly before
 its group of equal values, so equal results share a rank and the next
 distinct result skips the shared places (10, 10, 5 rank 1, 1, 3). The rank
 is computed over all the teams in the scope before the cut.
 */
module Rating {
  import opened Base
  import opened Models

  /** The `[:100]` slice. */
  const Limit: nat := 100

  /** One fantasy team (or team-tour) as the rating sees it. */
  datatype Standing = Standing(team: nat, user: Option<nat>, result: int)

  datatype Ranked = Ranked(standing: Standing, rank: nat)

  /**
   A fantasy team's entry for one tour (`FantasyTeamTour`), reduced to what its
   rating reads; `Budget.TeamTour` projects the same record to its roster.
   */
  datatype TeamTourEntry = TeamTourEntry(id: nat, tour: Option<nat>, user: Option<nat>, result: int)

  /** The number of standings with a result strictly above `v`. */
  function CountAbove(s: seq<Standing>, v: int): nat
  {
    if |s| == 0 then 0 else (if s[0].result > v then 1 else 0) + CountAbove(s[1..], v)
  }

  predicate SortedDesc(s: seq<Standing>)
  {
    forall i, j :: 0 <= i < j < |s| ==> s[i].result >= s[j].result
  }

  function StandingsOf(rows: seq<Ranked>): (r: seq<Standing>)
    ensures |r| == |rows|
    ensures forall i :: 0 <= i < |rows| ==> r[i] == rows[i].standing
  {
    seq(|rows|, i requires 0 <= i < |rows| => rows[i].standing)
  }

  function Insert(x: Standing, s: seq<Standing>): (r: seq<Standing>)
    requires SortedDesc(s)
    ensures |r| == |s| + 1
    ensures r[0] == x || (|s| > 0 && r[0] == s[0])
    ensures SortedDesc(r)
    ensures multiset(r) == multiset(s) + multiset{x}
  {
    if |s| == 0 then [x]
    else if s[0].result <= x.result then [x] + s
    else
      assert s == [s[0]] + s[1..];
      [s[0]] + Insert(x, s[1..])
  }

  /**
   The order of `RANK() OVER (ORDER BY result DESC)`: insertion sort, highest
   result first; a standing goes before the standings it ties with that came
   after it in the input, so ties keep their input order.
   */
  function SortDesc(s: seq<Standing>): (r: seq<Standing>)
    ensures |r| == |s|
    ensures SortedDesc(r)
    ensures multiset(r) == multiset(s)
  {
    if |s| == 0 then []
    else
      assert s == [s[0]] + s[1..];
      Insert(s[0], SortDesc(s[1..]))
  }

  /** The standings whose result is exactly `v`. */
  function TiedAt(v: int): Standing -> bool
  {
    (x: Standing) => x.result == v
  }

  /** Inserting puts the new standing ahead of every standing it ties with, and leaves their order alone. */
  lemma {:induction false} InsertKeepsTieOrder(x: Standing, s: seq<Standing>, v: int)
    requires SortedDesc(s)
    ensures Filter(Insert(x, s), TiedAt(v)) == (if x.result == v then [x] else []) + Filter(s, TiedAt(v))
  {
    if |s| == 0 {
      FilterCons(x, [], TiedAt(v));
    } else if s[0].result <= x.result {
      FilterCons(x, s, TiedAt(v));
    } else {
      InsertKeepsTieOrder(x, s[1..], v);
      InsertBelowHead(x, s, v);
    }
  }

  /** The step of `InsertKeepsTieOrder` where the new standing goes below the head of `s`. */
  lemma InsertBelowHead(x: Standing, s: seq<Standing>, v: int)
    requires SortedDesc(s) && |s| > 0 && s[0].result > x.result
    requires Filter(Insert(x, s[1..]), TiedAt(v)) == (if x.result == v then [x] else []) + Filter(s[1..], TiedAt(v))
    ensures Filter(Insert(x, s), TiedAt(v)) == (if x.result == v then [x] else []) + Filter(s, TiedAt(v))
  {
    InsertUnfoldsBelowHead(x, s);
    FilterCons(s[0], Insert(x, s[1..]), TiedAt(v));
    FilterHead(s, TiedAt(v));
    TiedHeadsCommute(s[0], x, Filter(s[1..], TiedAt(v)), v);
  }

  /** Below a higher head, inserting leaves the head in place and inserts into the rest. */
  lemma InsertUnfoldsBelowHead(x: Standing, s: seq<Standing>)
    requires SortedDesc(s) && |s| > 0 && s[0].result > x.result
    ensures Insert(x, s) == [s[0]] + Insert(x, s[1..])
  {
  }

  /** A tied-with-`v` prefix of two standings with different results holds at most one of them, so their order does not matter. */
  lemma TiedHeadsCommute(a: Standing, x: Standing, tail: seq<Standing>, v: int)
    requires a.result > x.result
    ensures (if a.result == v then [a] else []) + ((if x.result == v then [x] else []) + tail)
         == (if x.result == v then [x] else []) + ((if a.result == v then [a] else []) + tail)
  {
  }

  /** Among standings with equal results, sorting keeps the input order, in every scope. */
  lemma {:induction false} SortDescKeepsTieOrder(s: seq<Standing>, v: int)
    ensures Filter(SortDesc(s), TiedAt(v)) == Filter(s, TiedAt(v))
  {
    if |s| > 0 {
      SortDescKeepsTieOrder(s[1..], v);
      InsertKeepsTieOrder(s[0], SortDesc(s[1..]), v);
      FilterHead(s, TiedAt(v));
    }
  }

  lemma {:induction false} CountAboveInsert(x: Standing, s: seq<Standing>, v: int)
    requires SortedDesc(s)
    ensures CountAbove(Insert(x, s), v) == CountAbove(s, v) + (if x.result > v then 1 else 0)
  {
    if |s| > 0 && s[0].result > x.result {
      CountAboveInsert(x, s[1..], v);
    }
  }

  /** Sorting does not change how many results lie above a value. */
  lemma {:induction false} CountAboveSort(s: seq<Standing>, v: int)
    ensures CountAbove(SortDesc(s), v) == CountAbove(s, v)
  {
    if |s| > 0 {
      CountAboveSort(s[1..], v);
      CountAboveInsert(s[0], SortDesc(s[1..]), v);
    }
  }

  /** In a sequence whose first `k` results exceed `v` and the rest do not, `k` results exceed `v`. */
  lemma {:induction false} CountAboveSplit(s: seq<Standing>, k: nat, v: int)
    requires k <= |s|
    requires forall j :: 0 <= j < k ==> s[j].result > v
    requires forall j :: k <= j < |s| ==> s[j].result <= v
    ensures CountAbove(s, v) == k
  {
    if |s| > 0 {
      CountAboveSplit(s[1..], if k > 0 then k - 1 else 0, v);
    }
  }

  /** A team never has every team of its scope above it, so its rank is at most the team count. */
  lemma {:induction false} CountAboveMember(s: seq<Standing>, x: Standing)
    requires x in s
    ensures CountAbove(s, x.result) < |s|
  {
    if s[0] != x {
      CountAboveMember(s[1..], x);
    } else {
      CountAboveAtMost(s[1..], x.result);
    }
  }

  lemma {:induction false} CountAboveAtMost(s: seq<Standing>, v: int)
    ensures CountAbove(s, v) <= |s|
  {
    if |s| > 0 {
      CountAboveAtMost(s[1..], v);
    }
  }

  /**
   The window function over an already sorted sequence: a row that ties with
   the row before it takes that row's rank; otherwise its rank is its
   1-based position.
   */
  method AnnotateRanks(s: seq<Standing>) returns (rows: seq<Ranked>)
    requires SortedDesc(s)
    ensures |rows| == |s|
    ensures forall i :: 0 <= i < |s| ==> rows[i].standing == s[i] && rows[i].rank == 1 + CountAbove(s, s[i].result)
  {
    rows := [];
    var i := 0;
    while i < |s|
      invariant 0 <= i <= |s|
      invariant |rows| == i
      invariant forall j :: 0 <= j < i ==> rows[j].standing == s[j] && rows[j].rank == 1 + CountAbove(s, s[j].result)
    {
      var rank;
      if i > 0 && s[i].result == s[i - 1].result {
        rank := rows[i - 1].rank;
      } else {
        CountAboveSplit(s, i, s[i].result);
        rank := i + 1;
      }
      rows := rows + [Ranked(s[i], rank)];
      i := i + 1;
    }
  }

  /** Every row's rank is one plus the number of teams of the scope strictly above it. */
  predicate RanksCountAbove(rows: seq<Ranked>, teams: seq<Standing>)
  {
    forall i :: 0 <= i < |rows| ==> rows[i].rank == 1 + CountAbove(teams, rows[i].standing.result) <= 1 + |teams| - 1
  }

  /** The rows come best first. */
  predicate BestFirst(rows: seq<Ranked>)
  {
    forall i, j :: 0 <= i < j < |rows| ==> rows[i].standing.result >= rows[j].standing.result
  }

  /** Rows with equal results carry equal ranks. */
  predicate TiesShareRank(rows: seq<Ranked>)
  {
    forall i, j :: 0 <= i < |rows| && 0 <= j < |rows| && rows[i].standing.result == rows[j].standing.result ==>
      rows[i].rank == rows[j].rank
  }

  /** The rows are teams of the scope, and no team left out has a result above the last row. */
  predicate TopOf(rows: seq<Ranked>, teams: seq<Standing>)
  {
    && multiset(StandingsOf(rows)) <= multiset(teams)
    && forall t :: t in multiset(teams) - multiset(StandingsOf(rows)) ==>
         |rows| > 0 && t.result <= rows[|rows| - 1].standing.result
  }

  /**
   The rating of one scope: its standings ranked by result descending, at most
   100 rows. Every returned row's rank is one plus the number of teams of the
   scope with a strictly greater result; the rows come best first; and no team
   left out of the slice has a result above a returned one.
   */
  method Rate(teams: seq<Standing>) returns (rows: seq<Ranked>)
    ensures |rows| == if |teams| < Limit then |teams| else Limit
    ensures RanksCountAbove(rows, teams)
    ensures BestFirst(rows)
    ensures TiesShareRank(rows)
    ensures TopOf(rows, teams)
  {
    var sorted := SortDesc(teams);
    var all := AnnotateRanks(sorted);
    var n := if |teams| < Limit then |teams| else Limit;
    rows := all[..n];
    RankedSliceFacts(teams, all, n);
  }

  lemma {:induction false} RankedSliceFacts(teams: seq<Standing>, all: seq<Ranked>, n: nat)
    requires |all| == |teams|
    requires forall i :: 0 <= i < |all| ==>
      all[i].standing == SortDesc(teams)[i] && all[i].rank == 1 + CountAbove(SortDesc(teams), SortDesc(teams)[i].result)
    requires n <= |teams| && (n == 0 ==> |teams| == 0)
    ensures RanksCountAbove(all[..n], teams)
    ensures BestFirst(all[..n])
    ensures TiesShareRank(all[..n])
    ensures TopOf(all[..n], teams)
  {
    RanksCountOverTeams(teams, all);
    var rows := all[..n];
    SliceRanks(teams, all, n);
    RanksCountAboveTies(rows, teams);
    BestFirstSortedSlice(teams, rows, n);
    TopOfSortedSlice(teams, rows, n);
  }

  lemma {:induction false} SliceRanks(teams: seq<Standing>, all: seq<Ranked>, n: nat)
    requires n <= |all|
    requires RanksCountAbove(all, teams)
    ensures RanksCountAbove(all[..n], teams)
    ensures forall i :: 0 <= i < n ==> all[..n][i] == all[i]
  {
  }

  /** Ranks that count the teams above give equal results equal ranks. */
  lemma {:induction false} RanksCountAboveTies(rows: seq<Ranked>, teams: seq<Standing>)
    requires RanksCountAbove(rows, teams)
    ensures TiesShareRank(rows)
  {
  }

  lemma {:induction false} BestFirstSortedSlice(teams: seq<Standing>, rows: seq<Ranked>, n: nat)
    requires n <= |teams| && |rows| == n
    requires forall i :: 0 <= i < n ==> rows[i].standing == SortDesc(teams)[i]
    ensures BestFirst(rows)
  {
    var sorted := SortDesc(teams);
    assert SortedDesc(sorted);
  }

  lemma {:induction false} TopOfSortedSlice(teams: seq<Standing>, rows: seq<Ranked>, n: nat)
    requires n <= |teams| && (n == 0 ==> |teams| == 0)
    requires |rows| == n
    requires forall i :: 0 <= i < n ==> rows[i].standing == SortDesc(teams)[i]
    ensures TopOf(rows, teams)
  {
    var sorted := SortDesc(teams);
    assert multiset(sorted) == multiset(teams);
    assert StandingsOf(rows) == sorted[..n];
    SliceLeavesNoneAbove(sorted, n);
    if n > 0 {
      assert rows[n - 1].standing == sorted[n - 1];
    }
  }

  /** Ranks computed on the sorted order count the teams above in the unsorted input, too. */
  lemma {:induction false} RanksCountOverTeams(teams: seq<Standing>, all: seq<Ranked>)
    requires |all| == |teams|
    requires forall i :: 0 <= i < |all| ==>
      all[i].standing == SortDesc(teams)[i] && all[i].rank == 1 + CountAbove(SortDesc(teams), SortDesc(teams)[i].result)
    ensures RanksCountAbove(all, teams)
  {
    forall i | 0 <= i < |all| {
      RankOverTeamsAt(teams, i);
    }
  }

  lemma {:induction false} RankOverTeamsAt(teams: seq<Standing>, i: nat)
    requires i < |teams|
    ensures CountAbove(SortDesc(teams), SortDesc(teams)[i].result) == CountAbove(teams, SortDesc(teams)[i].result) < |teams|
  {
    var sorted := SortDesc(teams);
    CountAboveSort(teams, sorted[i].result);
    CountAboveMember(sorted, sorted[i]);
  }

  /** Cutting a sorted sequence after `n` rows leaves out only rows no better than the last one kept. */
  lemma {:induction false} SliceLeavesNoneAbove(sorted: seq<Standing>, n: nat)
    requires SortedDesc(sorted)
    requires n <= |sorted|
    requires n == 0 ==> |sorted| == 0
    ensures multiset(sorted[..n]) <= multiset(sorted)
    ensures forall t :: t in multiset(sorted) - multiset(sorted[..n]) ==> n > 0 && t.result <= sorted[n - 1].result
  {
    assert sorted == sorted[..n] + sorted[n..];
    assert multiset(sorted) == multiset(sorted[..n]) + multiset(sorted[n..]);
    forall t | t in multiset(sorted) - multiset(sorted[..n])
      ensures n > 0 && t.result <= sorted[n - 1].result
    {
      assert t in multiset(sorted[n..]);
      var k :| 0 <= k < |sorted[n..]| && sorted[n..][k] == t;
      assert sorted[n + k] == t;
    }
  }

  /** Teams of competition `c`, as `competition.fantasy_teams` selects them. */
  function InCompetition(c: nat): FantasyTeam -> bool
  {
    (t: FantasyTeam) => t.competition == Some(c)
  }

  /** Team-tours of tour `t`, as `tour.fantasy_teams` selects them. */
  function InTour(t: nat): TeamTourEntry -> bool
  {
    (e: TeamTourEntry) => e.tour == Some(t)
  }

  /**
   `competition.fantasy_teams.all()`: the standings of the teams entered in
   competition `c`, one per such team, and nothing else.
   */
  function CompetitionStandings(teams: seq<FantasyTeam>, c: nat): (r: seq<Standing>)
    ensures |r| == |Filter(teams, InCompetition(c))|
    ensures forall x :: x in r ==> exists t :: t in teams && t.competition == Some(c) && x == Standing(t.id, t.user, t.result)
    ensures forall t :: t in teams && t.competition == Some(c) ==> Standing(t.id, t.user, t.result) in r
  {
    var inC := Filter(teams, InCompetition(c));
    var r := seq(|inC|, i requires 0 <= i < |inC| => Standing(inC[i].id, inC[i].user, inC[i].result));
    assert forall i :: 0 <= i < |inC| ==> inC[i] in multiset(inC);
    CompetitionTeamsCovered(teams, c, inC, r);
    r
  }

  lemma CompetitionTeamsCovered(teams: seq<FantasyTeam>, c: nat, inC: seq<FantasyTeam>, r: seq<Standing>)
    requires inC == Filter(teams, InCompetition(c))
    requires |r| == |inC| && forall i :: 0 <= i < |inC| ==> r[i] == Standing(inC[i].id, inC[i].user, inC[i].result)
    ensures forall t :: t in teams && t.competition == Some(c) ==> Standing(t.id, t.user, t.result) in r
  {
    forall t | t in teams && t.competition == Some(c)
      ensures Standing(t.id, t.user, t.result) in r
    {
      assert multiset(inC)[t] == multiset(teams)[t] > 0;
      var i :| 0 <= i < |inC| && inC[i] == t;
      assert r[i] == Standing(t.id, t.user, t.result);
    }
  }

  /**
   `tour.fantasy_teams.all()`: the standings of the team-tours of tour `t`,
   one per such team-tour, and nothing else.
   */
  function TourStandings(entries: seq<TeamTourEntry>, t: nat): (r: seq<Standing>)
    ensures |r| == |Filter(entries, InTour(t))|
    ensures forall x :: x in r ==> exists e :: e in entries && e.tour == Some(t) && x == Standing(e.id, e.user, e.result)
    ensures forall e :: e in entries && e.tour == Some(t) ==> Standing(e.id, e.user, e.result) in r
  {
    var inT := Filter(entries, InTour(t));
    var r := seq(|inT|, i requires 0 <= i < |inT| => Standing(inT[i].id, inT[i].user, inT[i].result));
    assert forall i :: 0 <= i < |inT| ==> inT[i] in multiset(inT);
    TourEntriesCovered(entries, t, inT, r);
    r
  }

  lemma TourEntriesCovered(entries: seq<TeamTourEntry>, t: nat, inT: seq<TeamTourEntry>, r: seq<Standing>)
    requires inT == Filter(entries, InTour(t))
    requires |r| == |inT| && forall i :: 0 <= i < |inT| ==> r[i] == Standing(inT[i].id, inT[i].user, inT[i].result)
    ensures forall e :: e in entries && e.tour == Some(t) ==> Standing(e.id, e.user, e.result) in r
  {
    forall e | e in entries && e.tour == Some(t)
      ensures Standing(e.id, e.user, e.result) in r
    {
      assert multiset(inT)[e] == multiset(entries)[e] > 0;
      var i :| 0 <= i < |inT| && inT[i] == e;
      assert r[i] == Standing(e.id, e.user, e.result);
    }
  }

  /**
   What `Rate` guarantees, as one predicate: min(n, 100) rows of the scope,
   ranked over all of it, best first, ties sharing a rank, and the top ones kept.
   */
  predicate IsRating(rows: seq<Ranked>, scope: seq<Standing>)
  {
    && |rows| == (if |scope| < Limit then |scope| else Limit)
    && RanksCountAbove(rows, scope)
    && BestFirst(rows)
    && TiesShareRank(rows)
    && TopOf(rows, scope)
  }

  /**
   `CompetitionViewSet.rating`: the competition's teams ranked among all of
   them, best first, cut to the first 100.
   */
  method CompetitionRating(teams: seq<FantasyTeam>, competition: Competition) returns (rows: seq<Ranked>)
    ensures IsRating(rows, CompetitionStandings(teams, competition.id))
    ensures forall i :: 0 <= i < |rows| ==>
      exists t :: t in teams && t.competition == Some(competition.id) && rows[i].standing == Standing(t.id, t.user, t.result)
  {
    var standings := CompetitionStandings(teams, competition.id);
    rows := Rate(standings);
    forall i | 0 <= i < |rows|
      ensures rows[i].standing in standings
    {
      assert StandingsOf(rows)[i] == rows[i].standing;
      assert rows[i].standing in multiset(StandingsOf(rows));
    }
  }

  /** `CompetitionTourViewSet.rating`: the same ranking over one tour's team-tours. */
  method TourRating(entries: seq<TeamTourEntry>, t: nat) returns (rows: seq<Ranked>)
    ensures IsRating(rows, TourStandings(entries, t))
    ensures forall i :: 0 <= i < |rows| ==>
      exists e :: e in entries && e.tour == Some(t) && rows[i].standing == Standing(e.id, e.user, e.result)
  {
    var standings := TourStandings(entries, t);
    rows := Rate(standings);
    forall i | 0 <= i < |rows|
      ensures rows[i].standing in standings
    {
      assert StandingsOf(rows)[i] == rows[i].standing;
      assert rows[i].standing in multiset(StandingsOf(rows));
    }
  }
}

=== FILE: serializers.dfy ===
/**
 The serializer rules with logic of their own: the sign-up username default,
 the fantasy-team result recomputed from match results on every read, and the
 match results listed under each roster slot.

 Match results (`PlayerMatchResult`) and tours (`CompetitionTour`) are read
 only through the fields the serializers use: a result row is its player, its
 tour and its result in hundredths; a roster slot is its player and its tour.
 */
module Serializers {
  import opened Base
  import opened Models

  // ---------------------------------------------------------------------------
  // UserCreateByEmailSerializer.perform_create

  /** The validated sign-up fields; a field the request left out is `None`. */
  datatype SignUp = SignUp(email: Option<string>, username: Option<string>, password: Option<string>)

  /** Python truthiness of an optional string: present and non-empty. */
  predicate Truthy(s: Option<string>)
  {
    s.Some? && |s.value| > 0
  }

  /** A truthy username is kept; otherwise the email (possibly missing) becomes the username. */
  function DefaultUsername(d: SignUp): (r: SignUp)
    ensures r.email == d.email && r.password == d.password
    ensures Truthy(d.username) ==> r.username == d.username
    ensures !Truthy(d.username) ==> r.username == d.email
    ensures Truthy(r.username) <==> Truthy(d.username) || Truthy(d.email)
  {
    if Truthy(d.username) then d else d.(username := d.email)
  }

  /** Defaulting twice changes nothing more than defaulting once. */
  lemma DefaultUsernameIdempotent(d: SignUp)
    ensures DefaultUsername(DefaultUsername(d)) == DefaultUsername(d)
  {
  }

  // ---------------------------------------------------------------------------
  // Match results

  /** A `PlayerMatchResult` row; its player and tour links are nullable. */
  datatype ResultRow = ResultRow(player: Option<nat>, tour: Option<nat>, result: int)

  /**
   A roster slot as the serializers read it: the id of its player (the
   `player` link of `Models.FantasyPlayer`) and the id of its tour (the
   `competition_tour` link, which belongs to a record `app/fantasy/models.py`
   does not define).
   */
  datatype SlotRef = SlotRef(player: Option<nat>, tour: Option<nat>)

  function Results(rows: seq<ResultRow>): (xs: seq<int>)
    ensures |xs| == |rows|
    ensures forall i :: 0 <= i < |rows| ==> xs[i] == rows[i].result
  {
    seq(|rows|, i requires 0 <= i < |rows| => rows[i].result)
  }

  lemma ResultsAppend(a: seq<ResultRow>, b: seq<ResultRow>)
    ensures Results(a + b) == Results(a) + Results(b)
  {
  }

  /** `values_list('player')` over the roster without its NULLs, which `__in` never matches. */
  function Players(slots: seq<SlotRef>): set<nat>
  {
    set s | s in slots && s.player.Some? :: s.player.value
  }

  /** `values_list('competition_tour')` over the roster without its NULLs. */
  function Tours(slots: seq<SlotRef>): set<nat>
  {
    set s | s in slots && s.tour.Some? :: s.tour.value
  }

  /** `player__in=player_ids, competition_tour__in=competition_tour_ids`. */
  predicate Counted(slots: seq<SlotRef>, row: ResultRow)
  {
    && row.player.Some? && row.player.value in Players(slots)
    && row.tour.Some? && row.tour.value in Tours(slots)
  }

  function CountedBy(slots: seq<SlotRef>): ResultRow -> bool
  {
    (row: ResultRow) => Counted(slots, row)
  }

  /** The rows `get_result` adds up. */
  function CountedRows(slots: seq<SlotRef>, rows: seq<ResultRow>): (r: seq<ResultRow>)
    ensures forall i :: 0 <= i < |r| ==> Counted(slots, r[i])
    ensures forall row :: multiset(r)[row] == if Counted(slots, row) then multiset(rows)[row] else 0
  {
    Filter(rows, CountedBy(slots))
  }

  /** `aggregate(total=Sum('result'))['total']`: SQL's SUM over no rows is NULL. */
  function Aggregate(xs: seq<int>): (r: Option<int>)
    ensures r.None? <==> |xs| == 0
    ensures r.Some? ==> r.value == Sum(xs)
  {
    if |xs| == 0 then None else Some(Sum(xs))
  }

  /**
   `FantasyTeamSerializer.get_result`: the sum of the results of every row
   whose player is the player of some slot and whose tour is the tour of some
   (possibly other) slot; 0 when no row matches.
   */
  function GetResult(slots: seq<SlotRef>, rows: seq<ResultRow>): (r: int)
    ensures (forall i :: 0 <= i < |rows| ==> !Counted(slots, rows[i])) ==> r == 0
  {
    var total := Aggregate(Results(CountedRows(slots, rows)));
    if total.Some? then total.value else 0
  }

  /** The NULL of an empty sum and the 0 it becomes agree with the plain sum of the counted rows. */
  lemma GetResultIsSum(slots: seq<SlotRef>, rows: seq<ResultRow>)
    ensures GetResult(slots, rows) == Sum(Results(CountedRows(slots, rows)))
  {
  }

  /** The total over two batches of result rows is the sum of the totals. */
  lemma GetResultAppend(slots: seq<SlotRef>, a: seq<ResultRow>, b: seq<ResultRow>)
    ensures GetResult(slots, a + b) == GetResult(slots, a) + GetResult(slots, b)
  {
    FilterAppend(a, b, CountedBy(slots));
    ResultsAppend(CountedRows(slots, a), CountedRows(slots, b));
    SumAppend(Results(CountedRows(slots, a)), Results(CountedRows(slots, b)));
    GetResultIsSum(slots, a + b);
    GetResultIsSum(slots, a);
    GetResultIsSum(slots, b);
  }

  /**
   The total depends on the roster only through its sets of players and of
   tours: reordering or duplicating slots, or pairing players with other
   tours, does not change it.
   */
  lemma GetResultDependsOnSets(s1: seq<SlotRef>, s2: seq<SlotRef>, rows: seq<ResultRow>)
    requires Players(s1) == Players(s2) && Tours(s1) == Tours(s2)
    ensures GetResult(s1, rows) == GetResult(s2, rows)
  {
    FilterAgree(rows, CountedBy(s1), CountedBy(s2));
  }

  /**
   The membership is a cross product: a row of player 1 in tour 20 is counted
   for a roster holding player 1 in tour 10 and player 2 in tour 20, although
   no slot pairs player 1 with tour 20.
   */
  lemma GetResultCrossProduct()
    ensures var slots := [SlotRef(Some(1), Some(10)), SlotRef(Some(2), Some(20))];
            var row := ResultRow(Some(1), Some(20), 700);
            && (forall i :: 0 <= i < |slots| ==> slots[i] != SlotRef(row.player, row.tour))
            && GetResult(slots, [row]) == 700
  {
    var slots := [SlotRef(Some(1), Some(10)), SlotRef(Some(2), Some(20))];
    var row := ResultRow(Some(1), Some(20), 700);
    assert slots[0] in slots && slots[1] in slots;
    assert Counted(slots, row);
    assert CountedRows(slots, [row]) == [row] by {
      assert [row][1..] == [];
    }
  }

  // ---------------------------------------------------------------------------
  // FantasyPlayerSerializer.to_representation

  /** `filter(player=slot.player, competition_tour=slot.tour)`: a NULL link matches exactly the NULL rows. */
  predicate OfSlot(slot: SlotRef, row: ResultRow)
  {
    row.player == slot.player && row.tour == slot.tour
  }

  function OfSlotBy(slot: SlotRef): ResultRow -> bool
  {
    (row: ResultRow) => OfSlot(slot, row)
  }

  /** The result rows listed under a slot, in table order. */
  function SlotRows(slot: SlotRef, rows: seq<ResultRow>): (r: seq<ResultRow>)
    ensures forall i :: 0 <= i < |r| ==> r[i].player == slot.player && r[i].tour == slot.tour
    ensures forall row :: multiset(r)[row] == if OfSlot(slot, row) then multiset(rows)[row] else 0
  {
    Filter(rows, OfSlotBy(slot))
  }

  /** The `player_match_results` of a slot's representation: the `result` of each listed row. */
  function SlotMatchResults(slot: SlotRef, rows: seq<ResultRow>): (r: seq<int>)
    ensures |r| == |SlotRows(slot, rows)|
    ensures forall i :: 0 <= i < |r| ==> r[i] == SlotRows(slot, rows)[i].result
  {
    Results(SlotRows(slot, rows))
  }

  /** A slot whose player and tour are both set: its listed rows are exactly the rows a one-slot team adds up. */
  lemma SingleSlotRows(slot: SlotRef, rows: seq<ResultRow>)
    requires slot.player.Some? && slot.tour.Some?
    ensures CountedRows([slot], rows) == SlotRows(slot, rows)
    ensures GetResult([slot], rows) == Sum(SlotMatchResults(slot, rows))
  {
    assert Players([slot]) == {slot.player.value};
    assert Tours([slot]) == {slot.tour.value};
    FilterAgree(rows, CountedBy([slot]), OfSlotBy(slot));
    GetResultIsSum([slot], rows);
  }

  /** Every row listed under a fully linked slot of the roster is counted in the team's total. */
  lemma SlotRowsAreCounted(slots: seq<SlotRef>, k: nat, rows: seq<ResultRow>, row: ResultRow)
    requires k < |slots| && slots[k].player.Some? && slots[k].tour.Some?
    requires row in SlotRows(slots[k], rows)
    ensures row in CountedRows(slots, rows)
  {
    assert multiset(SlotRows(slots[k], rows))[row] > 0;
    assert slots[k] in slots;
    assert Counted(slots, row);
    assert multiset(CountedRows(slots, rows))[row] > 0;
  }

  /**
   A slot whose player was deleted lists the result rows that have no player
   either, while the team total never counts a row without a player.
   */
  lemma NullPlayerSlot()
    ensures var slot := SlotRef(None, Some(10));
            var rows := [ResultRow(None, Some(10), 500)];
            SlotMatchResults(slot, rows) == [500] && GetResult([slot], rows) == 0
  {
    var slot := SlotRef(None, Some(10));
    var rows := [ResultRow(None, Some(10), 500)];
    assert rows[1..] == [];
    assert SlotRows(slot, rows) == rows;
  }

  // ---------------------------------------------------------------------------
  // FantasyTeamSerializer.to_representation

  datatype SlotView = SlotView(player: Option<nat>, tour: Option<nat>, matchResults: seq<int>)

  datatype TeamView = TeamView(
    id: nat,
    user: Option<nat>,
    competition: Option<nat>,
    result: int,
    nameExtended: string,
    fantasyPlayers: seq<SlotView>)

  function RepresentSlot(slot: SlotRef, rows: seq<ResultRow>): (v: SlotView)
    ensures v.player == slot.player && v.tour == slot.tour
    ensures multiset(v.matchResults) == multiset(Results(SlotRows(slot, rows)))
  {
    SlotView(slot.player, slot.tour, SlotMatchResults(slot, rows))
  }

  /**
   A fantasy team as the API shows it: the stored columns, except that
   `result` is replaced by the total recomputed from the match results, and
   the roster with each slot's match results.
   */
  function RepresentTeam(t: FantasyTeam, slots: seq<SlotRef>, rows: seq<ResultRow>): (v: TeamView)
    ensures v.id == t.id && v.user == t.user && v.competition == t.competition
    ensures v.nameExtended == t.nameExtended
    ensures v.result == Sum(Results(CountedRows(slots, rows)))
    ensures |v.fantasyPlayers| == |slots|
    ensures forall i :: 0 <= i < |slots| ==> v.fantasyPlayers[i] == RepresentSlot(slots[i], rows)
  {
    GetResultIsSum(slots, rows);
    TeamView(t.id, t.user, t.competition, GetResult(slots, rows), t.nameExtended,
      seq(|slots|, i requires 0 <= i < |slots| => RepresentSlot(slots[i], rows)))
  }

  /** The stored `result` column never reaches the representation. */
  lemma StoredResultIgnored(t: FantasyTeam, stored: Amount, slots: seq<SlotRef>, rows: seq<ResultRow>)
    ensures RepresentTeam(t.(result := stored), slots, rows) == RepresentTeam(t, slots, rows)
  {
  }
}
